=== FILE: README.md ===
# what-the-script — a Dafny model of script selection and package-manager detection

`what-the-script` is a small command-line tool. It reads the `scripts` of a project's
`package.json` and shows them in a checkbox prompt. The user may pick at most one script.
The tool then runs that script through the project's package manager. The package manager
is detected from lock files: `yarn.lock` means yarn, otherwise `pnpm-lock.yaml` means pnpm,
and otherwise npm.

This project models the decision logic of the tool as pure Dafny functions:

- `package_managers.dfy` (module `PackageManagers`) models the shared detector
  `determinePackageManager`. The working directory is the set of file names it contains. The
  result is the datatype `PackageManager = Yarn | Pnpm | Npm`, and `Name` gives the string the
  source returns. The module also states a generic first-match rule table (`FirstMatch`) and
  proves that the detector is that table applied to `[yarn.lock → yarn, pnpm-lock.yaml → pnpm]`
  with npm as the default.
- `list_command.dfy` (module `ListCommand`) models the `list` command: the early exits of
  `listScripts`, the prompt's choices, the prompt's `validate` rule, the command's own copy of
  the detector, the command-line string built by `runScript`, and how the run settles. The
  manifest's presence is the presence of `package.json` in the same set of file names. The parsed
  `scripts` field is an `Option` of an ordered sequence of (name, command text) pairs. The prompt's
  answer is an input. The outcome is `NoManifest | NoScripts | NoneSelected | Run(script, manager,
  command)`, and only `Run` spawns a process.

The source defines the detector twice with identical bodies, once in the shared utilities and once
inside the `list` command. Both are modelled. `ListCommand.LocalDetectorAgrees` proves they agree
on every directory.

`ListScripts` takes the first element of the answer, exactly as the code does. It carries no
requirement on the answer's length. `RunsTheSelectedScript` states what holds for the answers the
prompt can actually return: answers its validation accepts, made of offered values.

Two consequences of the code are worth stating on their own:

- The manifest's command text is never executed. The code always composes `yarn <name>`,
  `pnpm run <name>` or `npm run <name>`. The command text is used only to build the `message`
  property of each choice (`CommandTextIrrelevant`). The checkbox prompt has no `message` field
  and draws each row from `name`, so the command text is never displayed either.
- A failed script does not fail the command. `runScript` rejects, but the `try/catch` of
  `listScripts` (src/commands/list.ts:66-68) catches the rejection and only prints it
  (`Complete`). An interrupt listener is attached at src/commands/list.ts:108-112. The local
  `process` at line 97 is the child process object, though, so the listener waits for an event
  that object never emits. An interrupted child therefore ends with an error and rejects like any
  other failure (`SettleRun`).
- A script that writes a lot of output is reported as failed. `exec` is called without options
  (src/commands/list.ts:97), so its default buffer of 1024 × 1024 bytes per stream applies. When a
  stream outgrows it, `exec` gives up on the child and hands an error to the callback, even if the
  script exited with status 0 (`ExecReport`, `RunResolvesWithinBuffer`).

## Model

| member | source | states |
|---|---|---|
| `PackageManagers.DeterminePackageManager` | src/utils/packageManagers.utils.ts:5-18 | the result is yarn exactly when `yarn.lock` is present, pnpm exactly when `pnpm-lock.yaml` is present and `yarn.lock` is not, and npm exactly when neither marker is present; so yarn beats pnpm, and the function is total over the three managers |
| `PackageManagers.NamesDistinct` | src/utils/packageManagers.utils.ts:8-17 | the names `yarn`, `pnpm`, `npm` reported for the three managers are pairwise different, so the string result identifies the manager |
| `PackageManagers.FirstMatch` | src/utils/packageManagers.utils.ts:8-17 | a first-match rule table returns the manager of the earliest rule whose marker is present, and the default when no marker is present |
| `PackageManagers.DetectIsFirstMatch` | src/utils/packageManagers.utils.ts:8-17 | the detector equals the first-match table over the fixed priority yarn.lock, then pnpm-lock.yaml, with npm as the default |
| `PackageManagers.DependsOnlyOnMarkers` | src/utils/packageManagers.utils.ts:8-17 | two directories that agree on the presence of the two marker files get the same package manager |
| `PackageManagers.UnrelatedFilesIrrelevant` | src/utils/packageMangers.utils.test.ts:32-40 | adding or removing any files other than the two markers (such as `package.lock`) never changes the detected manager |
| `ListCommand.ScriptChoices` | src/commands/list.ts:26-30 | there is one prompt choice per script, in key order; each has name and value equal to the key, and a `message` property made of the key, `: ` and the command text |
| `ListCommand.ChoiceValuesAreKeys` | src/commands/list.ts:26-28 | the values the prompt can return are exactly the script keys in order, and they are pairwise distinct when the keys are |
| `ListCommand.ChoiceLookupRoundTrip` | src/commands/list.ts:29 | for distinct keys, reading the manifest under a choice's value gives back the command text that choice's `message` property was built from |
| `ListCommand.Lookup` | src/commands/list.ts:29 | reading `scripts[key]` finds a command text exactly when `key` is declared, and then returns the text of that key's entry |
| `ListCommand.LookupFindsKey` | src/commands/list.ts:29 | every declared script key can be read back from the manifest |
| `ListCommand.Validate` | src/commands/list.ts:41-46 | the prompt accepts an answer exactly when at most one script is toggled; otherwise it refuses with "Please select only one script at a time." |
| `ListCommand.AcceptedAnswerIsSingleton` | src/commands/list.ts:41-46 | a non-empty accepted answer consists of one script only, so taking its first element takes the whole selection |
| `ListCommand.RunCommand` | src/commands/list.ts:90-95 | for any reported manager name, the command-line ends with the script name, preceded by one of `yarn `, `pnpm run ` or `npm run ` |
| `ListCommand.CommandForManager` | src/commands/list.ts:90-95 | for each detected manager, the command-line is `yarn <name>`, `pnpm run <name>` or `npm run <name>` |
| `ListCommand.ParseRunCommand` | src/commands/list.ts:90-95 | parsing a composed command-line gives back the package manager and the script name it was built from |
| `ListCommand.RunCommandInjective` | src/commands/list.ts:90-95 | two composed command-lines are equal only when built from the same manager and the same script name |
| `ListCommand.LocalDeterminePackageManager` | src/commands/list.ts:72-85 | the `list` command's own detector returns yarn exactly when `yarn.lock` is present, pnpm exactly when only `pnpm-lock.yaml` is, and npm when neither is |
| `ListCommand.LocalDetectorAgrees` | src/commands/list.ts:72-85 | the `list` command's own detector returns the same manager as the shared detector for every set of files |
| `ListCommand.ListScripts` | src/commands/list.ts:8-65 | the outcome is NoManifest exactly when `package.json` is absent, NoScripts exactly when `scripts` is absent or empty, NoneSelected exactly when the answer is empty, and Run otherwise; a run is for the first selected key, through the detected manager, and its command-line is that manager's prefix followed by the key |
| `ListCommand.RunsTheSelectedScript` | src/commands/list.ts:50-65 | for any answer the prompt can return, a run is for exactly the one selected script; that script is declared in the manifest, and its command-line decodes to the detected manager and that script |
| `ListCommand.CommandTextIrrelevant` | src/commands/list.ts:26-30 | manifests with the same keys in the same order give the same outcome, whatever their command texts; the command text only goes into the choices' `message` property |
| `ListCommand.NoManifestIgnoresEverythingElse` | src/commands/list.ts:11-15 | without `package.json` the outcome is NoManifest, whatever the lock files, scripts and answer are, so no prompt, detection or process happens |
| `ListCommand.ExecReport` | src/commands/list.ts:97 | for a script that exits by itself, `exec` reports that exit exactly when neither output stream went over 1024 × 1024 bytes, and otherwise reports an output overflow, whatever the exit status |
| `ListCommand.SettleRun` | src/commands/list.ts:97-105 | the run's promise resolves exactly when `exec` reports no error, a clean exit with status 0; a non-zero exit, an output overflow, a child ended by a signal (an interrupt included) or a spawn error rejects it |
| `ListCommand.RunResolvesWithinBuffer` | src/commands/list.ts:97-104 | a script that exits by itself resolves the run exactly when it exits with status 0 and both output streams stay within the buffer |
| `ListCommand.Complete` | src/commands/list.ts:65-68 | the command's own promise always resolves; it reports an error exactly when it started a run for which `exec` reported an error |

## Left out

- File-system access (`fs.existsSync`, `fs.readFileSync`, `process.cwd()`) is replaced by a set of file names in the working directory.
- `JSON.parse` of the manifest is left out. The model receives the parsed `scripts` field as an optional ordered list of (name, text) pairs. Only a malformed manifest (the parse throws at src/commands/list.ts:17) or a manifest that is JSON `null` (reading `scripts` throws at line 18) reaches the top-level error handler. Other values do not throw, and the model does not cover them. A string `scripts` such as `"abc"` passes the check at line 20, and its character positions `0`, `1`, `2` become the choices. An array such as `["lint"]` gives the choice `0`, which would run the detected manager's command for `0`. The values `5`, `true` and `""` end as "no scripts". A command text that is not a string is interpolated into the `message` property as is.
- The `message` property built for each choice is not rendered by the prompt library, whose choices are drawn from `name`. The model keeps the property as the code builds it and does not claim that it is displayed.
- The working directory is one snapshot (`files`). In the source, `package.json` is checked before the prompt (src/commands/list.ts:12), but the lock files are checked only after the prompt returns (lines 75 and 79), which can be much later. Changes to the directory in between are not modelled.
- The interactive checkbox prompt (rendering, paging, keys) is left out. The answer it returns is an input, and only its validation rule is modelled.
- The `chalk` styling of the choices' `message` property and all console messages are left out, except the validation message.
- Process execution (`child_process.exec`, captured stdout and stderr) is reduced to how the child ended (`ExecEnd`) and whether the run resolves or rejects. Output sizes appear only as byte counts in `ExecReport`; the truncated text is not modelled.
- An interrupt of the tool itself, rather than of the child, is not modelled. No listener in the tool handles it, so it stops the tool before the run settles.
- The top-level `try/catch` of `listScripts` is modelled only for rejections of the run (`Complete`). The other errors it catches are not modelled, and neither is the text it prints. These are errors from file reading and manifest parsing, and the prompt's own rejection when the user aborts the open checkbox with Ctrl-C. That abort prints "An error occurred:" rather than ending as `NoneSelected`.
- ListCommand.RunCommand: what the shell does with the composed command-line is not modelled. The script name is inserted unquoted, so a name with whitespace or shell metacharacters would be split or run further commands. A yarn built-in command that shares the script's name (for example `install`) would run instead of the script. The contracts say only which string is composed and that it decodes to the manager and the script.
- The order of the `scripts` entries is an input. The source takes it from `Object.keys`, which lists integer-like keys first in ascending order and the other keys in insertion order. That ordering rule is not modelled.
- The command-line wiring in `src/index.ts` is left out. It only dispatches the `list` command and the default action to `listScripts`.

=== FILE: list_command.dfy ===
/**
 This module models the `list` command: the early exits of the workflow, the
 choices offered by the checkbox prompt, the prompt's validation rule, the
 command-line composed for the chosen script and the way the run settles.

 File-system access, manifest parsing, the interactive prompt and the child
 process are replaced by explicit inputs: the set of file names in the working
 directory, the already-parsed `scripts` entries of the manifest, the answer the
 prompt returned and the way the child process ended.
 */
module ListCommand {
  import opened PackageManagers

  datatype Option<T> = None | Some(value: T)

  /**
   The `scripts` entries of a parsed manifest, as (script name, shell command
   text), in the order `Object.keys` enumerates them: integer-like keys first in
   ascending numeric order, then the other keys in insertion order. This is not
   always the order in which they appear in the manifest's text.
   */
  type Scripts = seq<(string, string)>

  /** The manifest file looked up in the working directory. */
  const ManifestFile: string := "package.json"

  /** The message the prompt shows when more than one script is toggled. */
  const TooManySelected: string := "Please select only one script at a time."

  /** The script names of `scripts`, in order. */
  function Keys(scripts: Scripts): seq<string>
  {
    seq(|scripts|, i requires 0 <= i < |scripts| => scripts[i].0)
  }

  /** The keys of a parsed JSON object are pairwise distinct. */
  predicate DistinctKeys(scripts: Scripts)
  {
    forall i, j :: 0 <= i < j < |scripts| ==> scripts[i].0 != scripts[j].0
  }

  /**
   The command text stored under `key`, looked up the way an object property is
   read: present exactly when `key` is declared, and then the text of its
   (first, and for a parsed object only) entry.
   */
  function Lookup(scripts: Scripts, key: string): (r: Option<string>)
    ensures r.Some? <==> key in Keys(scripts)
    ensures forall i :: 0 <= i < |scripts| && scripts[i].0 == key && (forall j :: 0 <= j < i ==> scripts[j].0 != key) ==>
              r == Some(scripts[i].1)
  {
    if |scripts| == 0 then None
    else
      assert Keys(scripts) == [scripts[0].0] + Keys(scripts[1..]);
      if scripts[0].0 == key then Some(scripts[0].1)
      else
        var r := Lookup(scripts[1..], key);
        assert forall i :: 1 <= i < |scripts| ==> scripts[i] == scripts[1..][i - 1];
        r
  }

  // ---------------------------------------------------------------------------
  // Prompt choices
  // ---------------------------------------------------------------------------

  /**
   One entry handed to the checkbox prompt. The code also builds a `message`
   property from the name and the command text. The prompt library draws each
   row from `name` and has no `message` field, so that property is never shown.
   */
  datatype Choice = Choice(name: string, value: string, message: string)

  const MessageSeparator: string := ": "

  /**
   The choices offered by the prompt: one per script, in key order, named and
   valued by the script's key, with a `message` property built from the key
   and the command text.
   */
  function ScriptChoices(scripts: Scripts): (cs: seq<Choice>)
    ensures |cs| == |scripts|
    ensures forall i :: 0 <= i < |scripts| ==>
              && cs[i].name == scripts[i].0
              && cs[i].value == scripts[i].0
              && cs[i].message == scripts[i].0 + MessageSeparator + scripts[i].1
  {
    if |scripts| == 0 then []
    else
      var (key, command) := scripts[0];
      [Choice(key, key, key + MessageSeparator + command)] + ScriptChoices(scripts[1..])
  }

  /** The values the prompt can return, in the order it lists them. */
  function ChoiceValues(cs: seq<Choice>): seq<string>
  {
    seq(|cs|, i requires 0 <= i < |cs| => cs[i].value)
  }

  /**
   The prompt's values are exactly the script keys, in key order, and they are
   pairwise distinct whenever the keys are.
   */
  lemma ChoiceValuesAreKeys(scripts: Scripts)
    ensures ChoiceValues(ScriptChoices(scripts)) == Keys(scripts)
    ensures DistinctKeys(scripts) ==>
              forall i, j :: 0 <= i < j < |scripts| ==> ChoiceValues(ScriptChoices(scripts))[i] != ChoiceValues(ScriptChoices(scripts))[j]
  {
    var cs := ScriptChoices(scripts);
    var vs, ks := ChoiceValues(cs), Keys(scripts);
    assert |vs| == |cs| == |scripts| == |ks|;
    forall i | 0 <= i < |scripts|
      ensures vs[i] == ks[i] == scripts[i].0
    {
      assert vs[i] == cs[i].value;
    }
    assert vs == ks;
  }

  /**
   Reading the manifest under a choice's value yields the very command text the
   choice's `message` property was built from.
   */
  lemma ChoiceLookupRoundTrip(scripts: Scripts, i: int)
    requires DistinctKeys(scripts)
    requires 0 <= i < |scripts|
    ensures Lookup(scripts, ScriptChoices(scripts)[i].value) == Some(scripts[i].1)
    ensures ScriptChoices(scripts)[i].message == ScriptChoices(scripts)[i].value + MessageSeparator + scripts[i].1
  {
  }

  // ---------------------------------------------------------------------------
  // Prompt validation
  // ---------------------------------------------------------------------------

  /** The verdict of the prompt's validation rule on a confirmed answer. */
  datatype Validation = Accepted | Refused(message: string)

  /** The prompt accepts at most one toggled script and otherwise explains why it refuses. */
  function Validate(answer: seq<string>): (v: Validation)
    ensures v.Accepted? <==> |answer| <= 1
    ensures v.Refused? ==> v.message == TooManySelected
  {
    if |answer| > 1 then Refused(TooManySelected) else Accepted
  }

  /** A non-empty answer the prompt accepts consists of its first element alone. */
  lemma AcceptedAnswerIsSingleton(answer: seq<string>)
    requires Validate(answer).Accepted?
    requires |answer| > 0
    ensures answer == [answer[0]]
  {
  }

  // ---------------------------------------------------------------------------
  // Command composition
  // ---------------------------------------------------------------------------

  /** What precedes the script name in the command-line run for each package manager. */
  function CommandPrefix(pm: PackageManager): string
  {
    match pm
    case Yarn => "yarn "
    case Pnpm => "pnpm run "
    case Npm => "npm run "
  }

  /**
   The command-line run for script `name` given the reported package-manager
   name: yarn runs the script directly, every other name goes through `run`,
   and any name other than yarn and pnpm falls back to npm. The manifest's
   command text is not an input. The script name is inserted unquoted; how a
   shell would split it is outside this model.
   */
  function RunCommand(name: string, packageManager: string): (command: string)
    ensures |command| > |name| && command[|command| - |name|..] == name
    ensures command[..|command| - |name|] in {CommandPrefix(Yarn), CommandPrefix(Pnpm), CommandPrefix(Npm)}
  {
    var command :=
      if packageManager == "yarn" then "yarn " + name
      else if packageManager == "pnpm" then "pnpm run " + name
      else "npm run " + name;
    assert command[|command| - |name|..] == name;
    command
  }

  /** The command for a detected package manager is that manager's prefix followed by the script name. */
  lemma CommandForManager(pm: PackageManager, name: string)
    ensures RunCommand(name, Name(pm)) == CommandPrefix(pm) + name
  {
  }

  /** Recovers the package manager and the script name from a composed command-line. */
  function ParseCommand(command: string): Option<(PackageManager, string)>
  {
    if |command| >= 5 && command[..5] == "yarn " then Some((Yarn, command[5..]))
    else if |command| >= 9 && command[..9] == "pnpm run " then Some((Pnpm, command[9..]))
    else if |command| >= 8 && command[..8] == "npm run " then Some((Npm, command[8..]))
    else None
  }

  /**
   Composing and then parsing a command-line gives back the package manager and
   the script name, so different (manager, script) pairs never share a command.
   */
  lemma ParseRunCommand(pm: PackageManager, name: string)
    ensures ParseCommand(RunCommand(name, Name(pm))) == Some((pm, name))
  {
    var command := RunCommand(name, Name(pm));
    CommandForManager(pm, name);
    var p := CommandPrefix(pm);
    assert command[..|p|] == p && command[|p|..] == name;
    match pm
    case Yarn =>
    case Pnpm =>
      assert command[0] == 'p';
    case Npm =>
      assert command[0] == 'n';
  }

  /** The composed command determines both the package manager and the script. */
  lemma RunCommandInjective(p: PackageManager, a: string, q: PackageManager, b: string)
    requires RunCommand(a, Name(p)) == RunCommand(b, Name(q))
    ensures p == q && a == b
  {
    ParseRunCommand(p, a);
    ParseRunCommand(q, b);
  }

  // ---------------------------------------------------------------------------
  // Package-manager detection (the command's own copy)
  // ---------------------------------------------------------------------------

  /** The detector as the `list` command defines it for itself: same markers, same priority. */
  function LocalDeterminePackageManager(files: set<string>): (pm: PackageManager)
    ensures pm == Yarn <==> YarnLock in files
    ensures pm == Pnpm <==> YarnLock !in files && PnpmLock in files
    ensures pm == Npm <==> YarnLock !in files && PnpmLock !in files
  {
    if YarnLock in files then Yarn
    else if PnpmLock in files then Pnpm
    else Npm
  }

  /** The command's copy of the detector agrees with the shared one on every directory. */
  lemma LocalDetectorAgrees(files: set<string>)
    ensures LocalDeterminePackageManager(files) == DeterminePackageManager(files)
  {
  }

  // ---------------------------------------------------------------------------
  // The workflow
  // ---------------------------------------------------------------------------

  /** How one invocation of the command ends. Only `Run` spawns a child process. */
  datatype Outcome =
    | NoManifest
    | NoScripts
    | NoneSelected
    | Run(script: string, manager: PackageManager, command: string)

  /** The manifest declares at least one script. */
  predicate HasScripts(scripts: Option<Scripts>)
  {
    scripts.Some? && |scripts.value| > 0
  }

  /**
   One invocation of the command: no manifest and no scripts end the workflow
   before the prompt; an empty answer ends it after the prompt; otherwise the
   first selected script is run through the detected package manager.
   */
  function ListScripts(files: set<string>, scripts: Option<Scripts>, answer: seq<string>): (o: Outcome)
    ensures o == NoManifest <==> ManifestFile !in files
    ensures o == NoScripts <==> ManifestFile in files && !HasScripts(scripts)
    ensures o == NoneSelected <==> ManifestFile in files && HasScripts(scripts) && |answer| == 0
    ensures o.Run? <==> ManifestFile in files && HasScripts(scripts) && |answer| > 0
    ensures o.Run? ==>
              && o.script == answer[0]
              && o.manager == DeterminePackageManager(files)
              && o.command == CommandPrefix(o.manager) + o.script
  {
    if ManifestFile !in files then NoManifest
    else if !HasScripts(scripts) then NoScripts
    else if |answer| == 0 then NoneSelected
    else
      var pm := LocalDeterminePackageManager(files);
      var script := answer[0];
      LocalDetectorAgrees(files);
      CommandForManager(pm, script);
      Run(script, pm, RunCommand(script, Name(pm)))
  }

  /** The prompt returns only values it offered, and only answers its validation rule accepts. */
  predicate PromptAnswer(scripts: Scripts, answer: seq<string>)
  {
    && Validate(answer).Accepted?
    && forall i :: 0 <= i < |answer| ==> answer[i] in ChoiceValues(ScriptChoices(scripts))
  }

  /**
   For any answer the prompt can return, a run is for exactly the one script
   the user selected, which is a script the manifest declares, and its
   command-line decodes to the detected package manager and that script.
   */
  lemma RunsTheSelectedScript(files: set<string>, scripts: Scripts, answer: seq<string>)
    requires PromptAnswer(scripts, answer)
    ensures var o := ListScripts(files, Some(scripts), answer);
            o.Run? ==>
              && answer == [o.script]
              && o.script in Keys(scripts)
              && Lookup(scripts, o.script).Some?
              && ParseCommand(o.command) == Some((DeterminePackageManager(files), o.script))
  {
    var o := ListScripts(files, Some(scripts), answer);
    if o.Run? {
      AcceptedAnswerIsSingleton(answer);
      ChoiceValuesAreKeys(scripts);
      assert o.script in Keys(scripts);
      var i :| 0 <= i < |scripts| && Keys(scripts)[i] == o.script;
      LookupFindsKey(scripts, i);
      ParseRunCommand(o.manager, o.script);
    }
  }

  /** Every declared key is found by `Lookup`, whether or not keys repeat. */
  lemma LookupFindsKey(scripts: Scripts, i: int)
    requires 0 <= i < |scripts|
    ensures Lookup(scripts, scripts[i].0).Some?
  {
    assert Keys(scripts)[i] == scripts[i].0;
  }

  /**
   The command text declared for a script never influences the outcome: two
   manifests with the same keys in the same order lead to the same outcome.
   */
  lemma CommandTextIrrelevant(files: set<string>, s: Scripts, s': Scripts, answer: seq<string>)
    requires Keys(s) == Keys(s')
    ensures ListScripts(files, Some(s), answer) == ListScripts(files, Some(s'), answer)
  {
    assert |s| == |Keys(s)| == |s'|;
  }

  /**
   Without a manifest nothing else is consulted: the outcome does not depend on
   the lock files, the scripts or the answer.
   */
  lemma NoManifestIgnoresEverythingElse(files: set<string>, files': set<string>, s: Option<Scripts>, s': Option<Scripts>, a: seq<string>, a': seq<string>)
    requires ManifestFile !in files && ManifestFile !in files'
    ensures ListScripts(files, s, a) == ListScripts(files', s', a') == NoManifest
  {
  }

  // ---------------------------------------------------------------------------
  // Settling the run
  // ---------------------------------------------------------------------------

  /**
   How the spawned script ended, as `exec` reports it to its callback: a normal
   exit with a status code and no intervention by `exec`, termination by `exec`
   because the output outgrew its buffer, termination by a signal (an interrupt
   delivered to the child included), or an error before or while spawning.
   */
  datatype ExecEnd = Exited(code: int) | OutputLimitExceeded | Signalled(signal: string) | ExecError

  /**
   The most output, in bytes, `exec` buffers on standard output and on standard
   error when it is called without options, as the command calls it.
   */
  const MaxBuffer: nat := 1024 * 1024

  /**
   What `exec` reports for a child that exits by itself with status `code`
   after writing the given amounts of output: the exit, unless either stream
   went over the buffer, in which case `exec` gives up on the child whatever
   its status, even a clean exit.
   */
  function ExecReport(code: int, stdoutBytes: nat, stderrBytes: nat): (e: ExecEnd)
    ensures e == Exited(code) <==> stdoutBytes <= MaxBuffer && stderrBytes <= MaxBuffer
    ensures e != Exited(code) ==> e == OutputLimitExceeded
  {
    if stdoutBytes > MaxBuffer || stderrBytes > MaxBuffer then OutputLimitExceeded
    else Exited(code)
  }

  /** Whether the promise around the child process resolves or rejects. */
  datatype Settlement = Resolved | Rejected

  /**
   The run's promise resolves exactly when `exec` reports no error, that is a
   clean exit with status 0 and no intervention. Every other end, an
   interrupted child or an output overflow among them, reaches the callback
   with an error and rejects the promise. The interrupt listener is registered
   on the child process object, which never emits that event, so it never
   settles the promise.
   */
  function SettleRun(end: ExecEnd): (s: Settlement)
    ensures s == Resolved <==> end == Exited(0)
  {
    match end
    case Exited(code) => if code == 0 then Resolved else Rejected
    case OutputLimitExceeded => Rejected
    case Signalled(_) => Rejected
    case ExecError => Rejected
  }

  /**
   A script that exits by itself resolves the run exactly when it exits with
   status 0 and neither output stream outgrows the buffer: a verbose script is
   reported as failed even when it succeeded.
   */
  lemma RunResolvesWithinBuffer(code: int, stdoutBytes: nat, stderrBytes: nat)
    ensures SettleRun(ExecReport(code, stdoutBytes, stderrBytes)) == Resolved <==> code == 0 && stdoutBytes <= MaxBuffer && stderrBytes <= MaxBuffer
  {
  }

  /** What an invocation of the command leaves once any run it started has ended. */
  datatype Completion = Completion(settlement: Settlement, errorReported: bool)

  /**
   The command's own promise, after its top-level handler: it always resolves,
   and it reports an error exactly when it started a run for which `exec`
   reported an error. A failing script never fails the command itself.
   */
  function Complete(o: Outcome, end: ExecEnd): (c: Completion)
    ensures c.settlement == Resolved
    ensures c.errorReported <==> o.Run? && end != Exited(0)
  {
    if o.Run? && SettleRun(end) == Rejected then Completion(Resolved, true)
    else Completion(Resolved, false)
  }
}

=== FILE: package_managers.dfy ===
/**
 This module models the package-manager detector of the tool: a fixed-priority,
 first-match rule over the lock-file names present in the working directory.
 The working directory is represented by the set of file names it contains, so
 the detector is a pure, total function of that set.
 */
module PackageManagers {

  /** The package managers the tool knows how to invoke. */
  datatype PackageManager = Yarn | Pnpm | Npm

  /** Lock file whose presence marks a yarn project. */
  const YarnLock: string := "yarn.lock"

  /** Lock file whose presence marks a pnpm project. */
  const PnpmLock: string := "pnpm-lock.yaml"

  /** The name under which the detector reports a package manager. */
  function Name(pm: PackageManager): string
  {
    match pm
    case Yarn => "yarn"
    case Pnpm => "pnpm"
    case Npm => "npm"
  }

  /** Different package managers are reported under different names. */
  lemma NamesDistinct(p: PackageManager, q: PackageManager)
    ensures Name(p) == Name(q) <==> p == q
  {
  }

  /**
   The detector: `yarn.lock` wins, then `pnpm-lock.yaml`, and npm is the
   default when neither marker is present.
   */
  function DeterminePackageManager(files: set<string>): (pm: PackageManager)
    ensures pm == Yarn <==> YarnLock in files
    ensures pm == Pnpm <==> YarnLock !in files && PnpmLock in files
    ensures pm == Npm <==> YarnLock !in files && PnpmLock !in files
  {
    if YarnLock in files then Yarn
    else if PnpmLock in files then Pnpm
    else Npm
  }

  /** The markers in the order the detector consults them. */
  const LockPriority: seq<(string, PackageManager)> := [(YarnLock, Yarn), (PnpmLock, Pnpm)]

  /** No rule of `rules` before index `k` has its marker present. */
  predicate NoneBefore(rules: seq<(string, PackageManager)>, files: set<string>, k: int)
    requires 0 <= k <= |rules|
  {
    forall j :: 0 <= j < k ==> rules[j].0 !in files
  }

  /**
   A generic first-match rule table: the manager of the first rule whose marker
   is present, or `default` when no marker is present.
   */
  function FirstMatch(rules: seq<(string, PackageManager)>, files: set<string>, default: PackageManager): (pm: PackageManager)
    ensures NoneBefore(rules, files, |rules|) ==> pm == default
    ensures forall k :: 0 <= k < |rules| && rules[k].0 in files && NoneBefore(rules, files, k) ==> pm == rules[k].1
    decreases |rules|
  {
    if |rules| == 0 then default
    else if rules[0].0 in files then rules[0].1
    else
      var rest := FirstMatch(rules[1..], files, default);
      assert forall k :: 1 <= k <= |rules| ==> NoneBefore(rules, files, k) == NoneBefore(rules[1..], files, k - 1);
      rest
  }

  /** The detector is exactly the first-match rule over the priority table, defaulting to npm. */
  lemma DetectIsFirstMatch(files: set<string>)
    ensures DeterminePackageManager(files) == FirstMatch(LockPriority, files, Npm)
  {
  }

  /** Only the membership of the two marker names influences the result. */
  lemma DependsOnlyOnMarkers(files: set<string>, files': set<string>)
    requires YarnLock in files <==> YarnLock in files'
    requires PnpmLock in files <==> PnpmLock in files'
    ensures DeterminePackageManager(files) == DeterminePackageManager(files')
  {
  }

  /**
   Adding or removing files that are not markers (such as `package.lock`)
   never changes the detected package manager.
   */
  lemma UnrelatedFilesIrrelevant(files: set<string>, others: set<string>)
    requires YarnLock !in others && PnpmLock !in others
    ensures DeterminePackageManager(files + others) == DeterminePackageManager(files)
    ensures DeterminePackageManager(files - others) == DeterminePackageManager(files)
  {
    DependsOnlyOnMarkers(files + others, files);
    DependsOnlyOnMarkers(files - others, files);
  }
}
